=== FILE: README.md ===
# smellcheck: a verified model of the lookup logic

smellcheck lets a user pick a location and a smell and shows the stored
causes and solutions for that pair. This project models the deterministic
decision logic around that lookup, in Dafny:

- the `/api/smells` route (`pages/api/smells.ts`): the origin allowlist, the
  fixed order of the 403 / 405 / 400 / 500 / 200 decisions, `sanitizeString`,
  and the first-occurrence deduplication of locations (module `Api`, with
  `Sanitize` and `Seqs`);
- the selector (`components/SmellSelector.tsx`): the two dependent dropdowns
  as a state machine over `(allSmells, locations, selectedLocation,
  selectedSmell, filteredSmells)`, with the callback notifications each
  event emits (module `Selector`);
- the page (`pages/index.tsx`): the result panel `(results, loading, error)`,
  its request start, completion and `clearResults`, the numbered rendering of
  causes and solutions, and the wiring of the selector's callbacks to the
  panel (module `Home`, with `Decimal` for the numbers).

The hosted store is not modelled. The handler returns the query it issues,
and the store's answer to it (rows, `null` rows, or an error) is a parameter.
A client `fetch` is likewise an outcome parameter: a non-ok response with or
without a `message`, an ok response with a parsed body, or a thrown value.
`isDevelopment` and the allowlist are parameters. `DeployedOrigins` is the
list `utils/config.ts` ships.

Modelling choices:
- Whitespace is one predicate, `Sanitize.IsWS`. It holds the ECMAScript
  WhiteSpace and LineTerminator characters. JavaScript's `\s` and `trim()`
  both use exactly this set. Dafny characters are Unicode scalar values
  while JavaScript strings are UTF-16. Both halves of a surrogate pair fall
  outside the allowed class, as does the scalar they encode, so both
  versions delete the same characters.
- A body field is `Missing`, a `Text`, or some `NonText` value of which only
  its truthiness matters. The code (smells.ts:81, 86-87) gives a truthy
  non-string `smell` or `location` to `sanitizeString`, which has no
  `replace` to call. It throws inside the `try`, and the answer is 500.
- `isValidOrigin` also rejects an empty origin (`origin && …`). With the
  shipped allowlist this changes nothing (`Api.DeployedOriginsAccepted`).
- React runs the filtering effect only when `selectedLocation` or
  `allSmells` changed. Each transition folds that rerun in (`Selector.Refresh`).

Behaviour of the code that is easy to misread:
- The smell dropdown is disabled only while no location is chosen. A
  location with no paired smells gives an enabled, empty dropdown
  (`Selector.LocationWithoutSmells`).
- The kept characters are ASCII letters, ASCII digits, `-` and every
  character `\s` matches (`Sanitize.IsWS`), not only the space.
- The options are fetched once, at mount, so a failed fetch leaves both of
  the selector's lists empty. `Selector.LoadOptions` is stated for any start
  state and keeps the lists as they were.

## Model

| member | source | states |
|---|---|---|
| Seqs.Dedup | pages/api/smells.ts:64-66 | the result has no repetitions, holds exactly the input's values, and orders them by first occurrence in the input |
| Seqs.DedupKeepsDistinct | pages/api/smells.ts:64-66 | a sequence without repetitions is returned unchanged |
| Seqs.DedupKeepsSorted | pages/api/smells.ts:56-66 | deduplicating a sorted sequence leaves it sorted |
| Sanitize.IsWS | pages/api/smells.ts:19 | the characters `\s` matches and `trim()` removes: the ECMAScript WhiteSpace and LineTerminator code points |
| Sanitize.Strip | pages/api/smells.ts:19 | the regex replace keeps only letters, digits, whitespace and `-`, as an order-preserving subsequence |
| Sanitize.StripCounts | pages/api/smells.ts:19 | every allowed character survives as often as it occurs; every other character is gone |
| Sanitize.TrimStart | pages/api/smells.ts:19 | the result is a suffix, all that is dropped is whitespace, and it does not start with whitespace |
| Sanitize.TrimEnd | pages/api/smells.ts:19 | the result is a prefix, all that is dropped is whitespace, and it does not end with whitespace |
| Sanitize.Trim | pages/api/smells.ts:19 | the input is whitespace, then the result, then whitespace; the result has no whitespace at either end |
| Sanitize.TrimDeletesOnly | pages/api/smells.ts:19 | trimming yields a subsequence and keeps a string of allowed characters allowed |
| Sanitize.SanitizeString | pages/api/smells.ts:18-20 | the output is the stripped input with only whitespace removed at either end; every output character is allowed, the output has no edge whitespace, and it is a subsequence of the input, never longer |
| Sanitize.SanitizeFixedPoint | pages/api/smells.ts:18-20 | a string sanitises to itself exactly when it has only allowed characters and no edge whitespace |
| Sanitize.SanitizeIdempotent | pages/api/smells.ts:18-20 | sanitising twice equals sanitising once |
| Api.Truthy | pages/api/smells.ts:81 | a body field passes `!field` exactly when it is present and neither an empty string nor a falsy non-string (also the test at line 49) |
| Api.IsValidOrigin | pages/api/smells.ts:12-15 | true in development; otherwise true exactly for a present, non-empty origin on the allowlist |
| Api.DeployedOriginsAccepted | utils/config.ts:6-11 | in production with the shipped list, an origin passes exactly when it is one of the four URLs |
| Api.LocationColumn | pages/api/smells.ts:65 | one entry per row, the i-th being the i-th row's location |
| Api.PairColumns | pages/api/smells.ts:70-72 | one entry per row, the i-th being the i-th row's name and location |
| Api.InLocationColumn | pages/api/smells.ts:65 | a value is in the location column exactly when some row has it as its location |
| Api.Answer | pages/api/smells.ts:103-106 | the query is reported as issued; a store error gives 500 "Internal server error"; rows give 200 with the body |
| Api.GetLocations | pages/api/smells.ts:55-67 | `getLocations` is issued; 500 on a store error, otherwise 200; `null` rows give the empty list |
| Api.GetSmells | pages/api/smells.ts:69-78 | `getSmells` is issued; 500 on a store error, otherwise 200 |
| Api.QueryResults | pages/api/smells.ts:89-98 | the results query is issued; 500 on a store error, otherwise 200 with the rows or `null` |
| Api.GetResults | pages/api/smells.ts:80-98 | 400 "Missing required fields" exactly when either raw field is falsy; no query without a 400 or 500 |
| Api.Dispatch | pages/api/smells.ts:54-101 | `getLocations`, `getSmells` and `getResults` are each answered by their own case; 400 "Invalid request type" exactly for an unknown type; a query only for a known one |
| Api.Handle | pages/api/smells.ts:22-107 | the status is one of 200/400/403/405/500; 200 exactly when a query ran and the store answered; every non-200 body is an error body; a query runs only after the origin, method and type checks pass |
| Api.ForbiddenComesFirst | pages/api/smells.ts:26-35 | in production a rejected origin gets 403 whatever the method, body or store |
| Api.MethodCheckedBeforeBody | pages/api/smells.ts:42-44 | a non-POST request with an accepted origin gets 405 whatever the body or store |
| Api.TypeChecked | pages/api/smells.ts:46-51 | for an accepted POST, 400 "Invalid request type" exactly when `type` is not a known string, with no query |
| Api.ResultsNeedBothFields | pages/api/smells.ts:80-83 | `getResults` gets 400 "Missing required fields" exactly when either raw field is falsy, with no query |
| Api.ResultsQuerySanitized | pages/api/smells.ts:85-98 | two non-empty strings are queried by their sanitised forms and the rows, `null` or 500 come back |
| Api.PostedPair | pages/api/smells.ts:80-93 | a `getResults` POST of two non-empty strings is refused with 403 for its origin, or else answered exactly by the results query of their sanitised forms |
| Api.PostedPairAnswers | pages/api/smells.ts:80-98 | a `getResults` POST of two non-empty strings never gets "Missing required fields"; it gets the rows, `null` or an error body, the last exactly when the status is not 200 |
| Api.PunctuationIsRemoved | pages/api/smells.ts:19 | "?!" sanitises to the empty string |
| Api.PunctuationSmellQueriesEmptyName | pages/api/smells.ts:80-93 | a smell of punctuation passes the presence check and is queried as the empty name |
| Api.NonStringFieldFails | pages/api/smells.ts:85-87 | a truthy non-string field makes sanitising throw: 500 and no query |
| Api.AcceptedSmellsRequest | pages/api/smells.ts:69-78 | an accepted `getSmells` POST is answered by the `getSmells` case: the `getSmells` query, then its pairs, `null` or 500 |
| Api.LocationColumnDeduplicated | pages/api/smells.ts:64-66 | the deduplicated location column holds each row's location exactly once and nothing else, in order of first occurrence, and stays sorted when the column is |
| Api.LocationsDeduplicated | pages/api/smells.ts:56-67 | `getLocations` answers 200 with each queried location exactly once, in order of first occurrence in the column, and a sorted column stays sorted |
| Api.QueryFailureIs500 | pages/api/smells.ts:103-106 | whenever a query ran and the store failed, the answer is 500 "Internal server error" |
| Selector.NamesAt | components/SmellSelector.tsx:64-66 | exactly the names of the pairs at the location |
| Selector.NamesAtOrder | components/SmellSelector.tsx:64-66 | names keep the relative order of their first matching pairs |
| Selector.FilteredSmells | components/SmellSelector.tsx:62-71 | empty without a location; otherwise exactly the names paired with it, once each, in order of their first pair |
| Selector.InitialConsistent | components/SmellSelector.tsx:22-26 | the initial state shows the list belonging to it |
| Selector.Refresh | components/SmellSelector.tsx:62-73 | the effect makes the shown list match location and smells and clears the smell, changing nothing else |
| Selector.ChangeLocation | components/SmellSelector.tsx:75-80 | sets the location, clears the smell, keeps the lists, keeps the shown list in step, emits `("", location)` then the location callback if given |
| Selector.ChangeSmell | components/SmellSelector.tsx:82-85 | sets the smell, leaves location and lists alone, emits `(smell, location)` |
| Selector.StoreSmellsAsWritten | components/SmellSelector.tsx:47-49 | any truthy payload is stored, a non-array one as a non-array |
| Selector.StoreSmells | components/SmellSelector.tsx:47-53 | only an array payload replaces the smells; an array stays an array |
| Selector.FilterSlot | components/SmellSelector.tsx:63-66 | filtering throws exactly when a location is chosen and the stored smells are not an array |
| Selector.ErrorBodyBreaksFiltering | components/SmellSelector.tsx:47-49 | as written, an error-object smells payload at mount is stored while the locations arrive, and choosing any location then makes filtering throw |
| Selector.StoreSmellsKeepsFilteringDefined | components/SmellSelector.tsx:47-53 | with the array guard, filtering never throws |
| Selector.LoadOptions | components/SmellSelector.tsx:28-60 | with the smells guard corrected to arrays only: a throw changes nothing; locations and smells are replaced only by arrays; new smells clear the smell, while without them the smell and the shown list are kept; the shown list stays in step |
| Selector.LoadOptionsAsWritten | components/SmellSelector.tsx:28-73 | as written: the component throws exactly when a non-array smells payload arrives while a location is chosen; such a payload with no location is stored and empties the shown list and the smell; every other fetch agrees with the corrected `LoadOptions` |
| Selector.SmellDropdownOf | components/SmellSelector.tsx:102-116 | disabled exactly without a location; the placeholder follows; the options are the filtered smells |
| Selector.DisabledDropdownIsEmpty | components/SmellSelector.tsx:106-111 | a disabled smell dropdown offers no options |
| Selector.LocationWithoutSmells | components/SmellSelector.tsx:63-71 | a location with no pairs gives an enabled, empty smell dropdown |
| Decimal.NatToString | pages/index.tsx:115 | a non-empty digit string without a leading zero |
| Decimal.NatToStringRoundTrip | pages/index.tsx:115 | reading the digits back gives the number |
| Home.BeginSelection | pages/index.tsx:20-24 | no change and no request exactly when smell or location is empty; otherwise loading, error cleared, results kept, the pair requested |
| Home.Failure | pages/index.tsx:36-46 | nothing is thrown exactly for an ok response with an array body |
| Home.ErrorText | pages/index.tsx:51 | a caught `Error` shows its message; any other thrown value shows "An error occurred" |
| Home.Finish | pages/index.tsx:36-55 | loading ends; an array shows its rows; anything else empties the results and sets the message, `message` or "Failed to fetch results" for non-ok |
| Home.RequestRoundTrip | pages/index.tsx:20-55 | a started request ends not loading, with its rows and no error, or no rows and an error |
| Home.ClearResults | pages/index.tsx:58-60 | empties the results, keeps error and loading |
| Home.NumberCauses | pages/index.tsx:109-119 | the i-th cause line carries number first+i and the i-th cause |
| Home.NumberSolutions | pages/index.tsx:120-130 | the i-th solution line carries number first+i and the i-th solution |
| Home.RenderRecord | pages/index.tsx:107-131 | causes numbered from 1, then solutions numbered from 1, in stored order |
| Home.RenderAll | pages/index.tsx:105-107 | one card per result, in order |
| Home.Render | pages/index.tsx:100-135 | nothing while loading or with no results, else one card per result |
| Home.Banner | pages/index.tsx:94-98 | the banner shows exactly for a non-empty error |
| Home.LineText | pages/index.tsx:114-128 | the label, then digits that read back as the number, then ": ", then the entry |
| Home.Notify | pages/index.tsx:89-92 | the location callback clears results; an empty selection changes nothing |
| Home.InitialPageIsBlank | pages/index.tsx:16-18 | at mount the selector's shown list belongs to its state, and the panel shows no cards, no spinner and no banner |
| Home.PickLocation | pages/index.tsx:89-92 | choosing a location posts nothing and clears the results, keeping loading and error; the selector takes the location, clears the smell, keeps both lists and keeps its shown list in step |
| Home.PickSmell | pages/index.tsx:20-24 | a smell under a chosen location posts the pair and starts loading; otherwise the panel is unchanged |
| Home.Respond | pages/index.tsx:25-55 | a completion leaves the selector alone and ends loading; an ok array response shows its rows and keeps the error, anything else empties the results and sets an error |
| Home.ApiErrorsShowFallback | pages/index.tsx:36-38 | for pairs the page posts, the route never answers "Missing required fields", and any API error shows "Failed to fetch results" |
| Home.ApiRowsAreShown | pages/index.tsx:41-48 | with an accepted origin, the rows the store returns are the rows shown |

## Left out

- Supabase client creation and the queries themselves: foreign library calls, replaced by the issued `Query` and an outcome parameter. The ordering the queries request (`order("location")`, `order("name")`) is the store's; `Api.LocationsDeduplicated` takes it as a hypothesis.
- CORS headers and every `console.log` / `console.error`: side effects with no decision logic.
- A request with a `null` or missing body: destructuring it throws outside the `try`, and the framework answers. That is framework behaviour. Any other non-object body yields absent fields, which the model covers as `Missing`.
- `fetch`, `response.json()`, React scheduling and the JSX styling: I/O and framework. Only the state transitions and a pure render are modelled.
- The location dropdown's markup (a fixed placeholder followed by `locations`): it has no logic beyond listing the state's `locations`.
- The race where a superseded request overwrites newer results: concurrency that the code does not handle. `Home.Respond` can be applied at any point, but no ordering between requests is modelled.
- A React component crash (the effect throwing) is modelled only as `Selector.FilterSlot` returning `None`. What happens to the page afterwards is not modelled.
- `utils/config.ts` environment validation: start-up I/O. Its allowlist is `Api.DeployedOrigins`.
- `scripts/generate-favicons.js` (image I/O) and `tailwind.config.js` (static theme data).
- Selector.LoadOptions: models the smells guard corrected to accept arrays only, which the rest of the model uses. The code as written at lines 47-49 of components/SmellSelector.tsx is `Selector.LoadOptionsAsWritten`; the two differ only for a truthy non-array smells payload.
- Home.FromApi: maps the `getLocations` and `getSmells` list bodies to a non-array body. The page never receives them (`Home.ApiErrorsShowFallback`).

## Findings

| source | as written | input that shows it | evidently intended | confidence | as-written member | corrected member |
|---|---|---|---|---|---|---|
| components/SmellSelector.tsx:47-49 | any truthy smells payload is stored, including a non-array object | the `getSmells` request answered with 500 and its `{ error }` body, then any location chosen: the effect calls `filter` on an object and throws | store only arrays, as the locations guard at lines 51-53 already does | not executed; high | Selector.ErrorBodyBreaksFiltering | Selector.StoreSmells |

=== FILE: api.dfy ===
/** The `/api/smells` route (`pages/api/smells.ts`): the origin gate, the
    method gate, dispatch on the request's `type`, and the shaping of each
    query's answer. The hosted store is not modelled: the handler reports
    which query it issues, and the store's answer to that query is a
    parameter. */
module Api {
  import opened Wrappers
  import opened Records
  import opened Seqs
  import opened Sanitize

  /** The two settings the route reads from `utils/config.ts`. */
  datatype Config = Config(isDevelopment: bool, allowedOrigins: seq<string>)

  /** The allowlist `utils/config.ts` ships. */
  const DeployedOrigins: seq<string> := [
    "http://localhost:3000",
    "https://smellcheck.vercel.app",
    "https://smellcheck-16redflags.vercel.app",
    "https://smellcheck-git-main-16redflags.vercel.app"
  ]

  /** A field of the JSON request body: absent, a string, or some other JSON
      value, of which only its truthiness matters. */
  datatype Field = Missing | Text(text: string) | NonText(truthy: bool)

  predicate Truthy(f: Field) {
    match f
    case Missing => false
    case Text(s) => s != ""
    case NonText(t) => t
  }

  datatype Request = Request(
    origin: Option<string>,
    httpMethod: string,
    requestType: Field,
    smell: Field,
    location: Field)

  /** The three reads the route can send to the `smells` table. */
  datatype Query =
    | LocationsQuery                               // select location order by location
    | SmellsQuery                                  // select name, location order by name
    | ResultsQuery(name: string, location: string) // select * where name = … and location = …

  /** The store's answer to the issued query: the rows (possibly `null`) in
      the order the query asked for, or an error. */
  datatype QueryOutcome = Rows(data: Option<seq<SmellRecord>>) | QueryFailed

  datatype Body =
    | ErrorBody(error: string)
    | LocationList(locations: seq<string>)
    | PairList(pairs: seq<SmellPair>)
    | RecordList(records: seq<SmellRecord>)
    | NullBody

  datatype Response = Response(status: int, body: Body)

  /** What one call of the handler does: the query it issued, if any, and the
      response it sent. */
  datatype Handled = Handled(query: Option<Query>, response: Response)

  const Forbidden := Response(403, ErrorBody("Forbidden"))
  const MethodNotAllowed := Response(405, ErrorBody("Method not allowed"))
  const InvalidRequestType := Response(400, ErrorBody("Invalid request type"))
  const MissingFields := Response(400, ErrorBody("Missing required fields"))
  const InternalError := Response(500, ErrorBody("Internal server error"))

  /** `isValidOrigin`: everything passes in development; otherwise the
      origin must be present, non-empty (`origin && …`) and on the list. */
  function IsValidOrigin(cfg: Config, origin: Option<string>): (ok: bool)
    ensures cfg.isDevelopment ==> ok
    ensures !cfg.isDevelopment ==>
              (ok <==> origin.Some? && origin.value != "" && origin.value in cfg.allowedOrigins)
  {
    if cfg.isDevelopment then true
    else
      match origin
      case None => false
      case Some(o) => o != "" && o in cfg.allowedOrigins
  }

  /** With the shipped allowlist in production, an origin passes exactly
      when it is one of the four listed URLs. */
  lemma DeployedOriginsAccepted(origin: Option<string>)
    ensures IsValidOrigin(Config(false, DeployedOrigins), origin)
            <==> origin.Some? && origin.value in DeployedOrigins
  {
    assert "" !in DeployedOrigins by {
      forall i | 0 <= i < |DeployedOrigins| ensures DeployedOrigins[i] != "" {
        assert |DeployedOrigins[i]| > 0;
      }
    }
  }

  predicate IsKnownType(t: string) {
    t == "getLocations" || t == "getSmells" || t == "getResults"
  }

  function LocationColumn(rows: seq<SmellRecord>): (ls: seq<string>)
    ensures |ls| == |rows|
    ensures forall i :: 0 <= i < |rows| ==> ls[i] == rows[i].location
  {
    if |rows| == 0 then [] else [rows[0].location] + LocationColumn(rows[1..])
  }

  /** A value is in the location column exactly when some row has it as
      its location. */
  lemma InLocationColumn(rows: seq<SmellRecord>, x: string)
    ensures x in LocationColumn(rows) <==> exists k :: 0 <= k < |rows| && rows[k].location == x
  {
    var col := LocationColumn(rows);
    if x in col {
      var k := FirstIndex(col, x);
      assert rows[k].location == x;
    }
  }

  function PairColumns(rows: seq<SmellRecord>): (ps: seq<SmellPair>)
    ensures |ps| == |rows|
    ensures forall i :: 0 <= i < |rows| ==> ps[i] == SmellPair(rows[i].name, rows[i].location)
  {
    if |rows| == 0 then [] else [SmellPair(rows[0].name, rows[0].location)] + PairColumns(rows[1..])
  }

  /** A store error is rethrown and caught: 500 "Internal server error". */
  function Answer(q: Query, outcome: QueryOutcome, body: Body): (h: Handled)
    requires !body.ErrorBody?
    ensures h.query == Some(q)
    ensures outcome.QueryFailed? <==> h.response == InternalError
    ensures outcome.Rows? <==> h.response.status == 200
    ensures h.response.body.ErrorBody? <==> h.response.status != 200
    ensures outcome.Rows? ==> h.response.body == body
  {
    if outcome.QueryFailed? then Handled(Some(q), InternalError) else Handled(Some(q), Response(200, body))
  }

  /** The `getLocations` case: the location column (`null` rows read as no
      rows), each location once, in first-occurrence order. */
  function GetLocations(outcome: QueryOutcome): (h: Handled)
    ensures h.query == Some(LocationsQuery)
    ensures outcome.QueryFailed? <==> h.response == InternalError
    ensures outcome.Rows? <==> h.response.status == 200
    ensures h.response.body.ErrorBody? <==> h.response.status != 200
    ensures outcome == Rows(None) ==> h.response.body == LocationList([])
  {
    var rows := if outcome.Rows? then outcome.data.GetOr([]) else [];
    Answer(LocationsQuery, outcome, LocationList(Dedup(LocationColumn(rows))))
  }

  /** The `getSmells` case: the name and location of every row, or `null`. */
  function GetSmells(outcome: QueryOutcome): (h: Handled)
    ensures h.query == Some(SmellsQuery)
    ensures outcome.QueryFailed? <==> h.response == InternalError
    ensures outcome.Rows? <==> h.response.status == 200
    ensures h.response.body.ErrorBody? <==> h.response.status != 200
    ensures outcome == Rows(None) ==> h.response.body == NullBody
    ensures outcome.Rows? && outcome.data.Some? ==>
              var rows := outcome.data.value;
              h.response.body.PairList? && |h.response.body.pairs| == |rows| &&
              forall i :: 0 <= i < |rows| ==> h.response.body.pairs[i] == SmellPair(rows[i].name, rows[i].location)
  {
    var body := if outcome.Rows? && outcome.data.Some? then PairList(PairColumns(outcome.data.value)) else NullBody;
    Answer(SmellsQuery, outcome, body)
  }

  /** The rows of a `getResults` query, as they come, or `null`. */
  function QueryResults(name: string, location: string, outcome: QueryOutcome): (h: Handled)
    ensures h.query == Some(ResultsQuery(name, location))
    ensures outcome.QueryFailed? <==> h.response == InternalError
    ensures outcome.Rows? <==> h.response.status == 200
    ensures h.response.body.ErrorBody? <==> h.response.status != 200
    ensures outcome == Rows(None) ==> h.response.body == NullBody
    ensures outcome.Rows? && outcome.data.Some? ==> h.response.body == RecordList(outcome.data.value)
  {
    var body := if outcome.Rows? && outcome.data.Some? then RecordList(outcome.data.value) else NullBody;
    Answer(ResultsQuery(name, location), outcome, body)
  }

  /** The `getResults` case: both fields must be truthy; each is sanitised
      (a truthy non-string has no `replace`, so sanitising throws inside the
      `try` and the caller gets a 500) and the sanitised pair is queried. */
  function GetResults(smell: Field, location: Field, outcome: QueryOutcome): (h: Handled)
    ensures h.query.None? ==> h.response in {MissingFields, InternalError}
    ensures h.response == MissingFields <==> !Truthy(smell) || !Truthy(location)
    ensures h.response.status in {200, 400, 500}
    ensures h.response.status == 200 <==> h.query.Some? && outcome.Rows?
    ensures h.response.body.ErrorBody? <==> h.response.status != 200
  {
    if !Truthy(smell) || !Truthy(location) then Handled(None, MissingFields)
    else if !smell.Text? || !location.Text? then Handled(None, InternalError)
    else QueryResults(SanitizeString(smell.text), SanitizeString(location.text), outcome)
  }

  /** The `switch (type)` of the handler, reached with a non-empty string. */
  function Dispatch(t: string, req: Request, outcome: QueryOutcome): (h: Handled)
    ensures h.query.Some? ==> IsKnownType(t)
    ensures h.response == InvalidRequestType <==> !IsKnownType(t)
    ensures h.response.status in {200, 400, 500}
    ensures h.response.status == 200 <==> h.query.Some? && outcome.Rows?
    ensures h.response.body.ErrorBody? <==> h.response.status != 200
    ensures t == "getLocations" ==> h == GetLocations(outcome)
    ensures t == "getSmells" ==> h == GetSmells(outcome)
    ensures t == "getResults" ==> h == GetResults(req.smell, req.location, outcome)
  {
    if t == "getLocations" then GetLocations(outcome)
    else if t == "getSmells" then GetSmells(outcome)
    else if t == "getResults" then GetResults(req.smell, req.location, outcome)
    else Handled(None, InvalidRequestType)
  }

  /** `handler`. The checks run in a fixed order: origin (production only),
      method, `type`, then the case for that type. */
  function Handle(cfg: Config, req: Request, outcome: QueryOutcome): (h: Handled)
    ensures h.response.status in {200, 400, 403, 405, 500}
    ensures h.response.status == 200 <==> h.query.Some? && outcome.Rows?
    ensures h.response.body.ErrorBody? <==> h.response.status != 200
    ensures h.query.Some? ==>
              && IsValidOrigin(cfg, req.origin)
              && req.httpMethod == "POST"
              && req.requestType.Text? && IsKnownType(req.requestType.text)
  {
    if !cfg.isDevelopment && !IsValidOrigin(cfg, req.origin) then Handled(None, Forbidden)
    else if req.httpMethod != "POST" then Handled(None, MethodNotAllowed)
    else if !Truthy(req.requestType) || !req.requestType.Text? then Handled(None, InvalidRequestType)
    else Dispatch(req.requestType.text, req, outcome)
  }

  /** In production a rejected origin gets 403 whatever the method, body or
      store would have done. */
  lemma ForbiddenComesFirst(cfg: Config, req: Request, other: Request, outcome: QueryOutcome, outcome': QueryOutcome)
    requires !cfg.isDevelopment && !IsValidOrigin(cfg, req.origin)
    requires other.origin == req.origin
    ensures Handle(cfg, req, outcome) == Handle(cfg, other, outcome') == Handled(None, Forbidden)
  {
  }

  /** Once the origin passes, a method other than POST gets 405 whatever the
      body or store would have done. */
  lemma MethodCheckedBeforeBody(cfg: Config, req: Request, other: Request, outcome: QueryOutcome, outcome': QueryOutcome)
    requires IsValidOrigin(cfg, req.origin) && req.httpMethod != "POST"
    requires other.origin == req.origin && other.httpMethod == req.httpMethod
    ensures Handle(cfg, req, outcome) == Handle(cfg, other, outcome') == Handled(None, MethodNotAllowed)
  {
  }

  /** For an accepted POST, the answer is 400 "Invalid request type" exactly
      when `type` is not one of the three known strings (missing, empty,
      not a string, or unrecognised); no query is issued then. */
  lemma TypeChecked(cfg: Config, req: Request, outcome: QueryOutcome)
    requires IsValidOrigin(cfg, req.origin) && req.httpMethod == "POST"
    ensures var h := Handle(cfg, req, outcome);
            h.response == InvalidRequestType
            <==> !(req.requestType.Text? && IsKnownType(req.requestType.text))
    ensures !(req.requestType.Text? && IsKnownType(req.requestType.text)) ==> Handle(cfg, req, outcome).query.None?
  {
  }

  /** For an accepted `getResults`, the answer is 400 "Missing required
      fields" exactly when `smell` or `location` is falsy, and then no query
      is issued. The check looks at the raw values, before sanitising. */
  lemma ResultsNeedBothFields(cfg: Config, req: Request, outcome: QueryOutcome)
    requires IsValidOrigin(cfg, req.origin) && req.httpMethod == "POST"
    requires req.requestType == Text("getResults")
    ensures var h := Handle(cfg, req, outcome);
            h.response == MissingFields <==> !Truthy(req.smell) || !Truthy(req.location)
    ensures !Truthy(req.smell) || !Truthy(req.location) ==> Handle(cfg, req, outcome).query.None?
  {
  }

  /** An accepted `getResults` request is decided by its `getResults` case. */
  lemma AcceptedResultsRequest(cfg: Config, req: Request, outcome: QueryOutcome)
    requires IsValidOrigin(cfg, req.origin) && req.httpMethod == "POST"
    requires req.requestType == Text("getResults")
    ensures Handle(cfg, req, outcome) == GetResults(req.smell, req.location, outcome)
  {
    assert Handle(cfg, req, outcome) == Dispatch("getResults", req, outcome);
  }

  /** A `getResults` POST of two non-empty strings is either refused for
      its origin or answered by the results query of their sanitised forms. */
  lemma PostedPair(cfg: Config, origin: Option<string>, smell: string, location: string, outcome: QueryOutcome)
    requires smell != "" && location != ""
    ensures var h := Handle(cfg, Request(origin, "POST", Text("getResults"), Text(smell), Text(location)), outcome);
            if IsValidOrigin(cfg, origin)
            then h == QueryResults(SanitizeString(smell), SanitizeString(location), outcome)
            else h == Handled(None, Forbidden)
  {
    var req := Request(origin, "POST", Text("getResults"), Text(smell), Text(location));
    if IsValidOrigin(cfg, origin) {
      AcceptedResultsRequest(cfg, req, outcome);
      assert GetResults(req.smell, req.location, outcome)
             == QueryResults(SanitizeString(smell), SanitizeString(location), outcome);
    }
  }

  /** The answers a `getResults` POST of two non-empty strings can get: never
      "Missing required fields", and the rows, `null`, or an error body, the
      last exactly when the status is not 200. */
  lemma PostedPairAnswers(cfg: Config, origin: Option<string>, smell: string, location: string,
                          outcome: QueryOutcome)
    requires smell != "" && location != ""
    ensures var h := Handle(cfg, Request(origin, "POST", Text("getResults"), Text(smell), Text(location)), outcome);
            && h.response != MissingFields
            && (h.response.body.RecordList? || h.response.body.NullBody? || h.response.body.ErrorBody?)
            && (h.response.body.ErrorBody? <==> h.response.status != 200)
  {
    PostedPair(cfg, origin, smell, location, outcome);
  }

  /** An accepted `getResults` with two non-empty strings queries by their
      sanitised forms and answers with the store's rows, or 500. */
  lemma ResultsQuerySanitized(cfg: Config, req: Request, outcome: QueryOutcome)
    requires IsValidOrigin(cfg, req.origin) && req.httpMethod == "POST"
    requires req.requestType == Text("getResults")
    requires req.smell.Text? && req.smell.text != "" && req.location.Text? && req.location.text != ""
    ensures var h := Handle(cfg, req, outcome);
            && h.query == Some(ResultsQuery(SanitizeString(req.smell.text), SanitizeString(req.location.text)))
            && (outcome.QueryFailed? ==> h.response == InternalError)
            && (outcome == Rows(None) ==> h.response == Response(200, NullBody))
            && (outcome.Rows? && outcome.data.Some? ==> h.response == Response(200, RecordList(outcome.data.value)))
  {
    AcceptedResultsRequest(cfg, req, outcome);
    assert GetResults(req.smell, req.location, outcome)
           == QueryResults(SanitizeString(req.smell.text), SanitizeString(req.location.text), outcome);
  }

  lemma PunctuationIsRemoved()
    ensures SanitizeString("?!") == ""
  {
    assert "?!"[1..] == "!";
    assert "!"[1..] == "";
    assert Strip("?!") == "";
  }

  /** A smell made only of punctuation passes the presence check and is
      sent to the store as the empty name. */
  lemma PunctuationSmellQueriesEmptyName(cfg: Config, req: Request, outcome: QueryOutcome)
    requires IsValidOrigin(cfg, req.origin) && req.httpMethod == "POST"
    requires req.requestType == Text("getResults")
    requires req.smell == Text("?!") && req.location.Text? && req.location.text != ""
    ensures Handle(cfg, req, outcome).query == Some(ResultsQuery("", SanitizeString(req.location.text)))
  {
    PunctuationIsRemoved();
    ResultsQuerySanitized(cfg, req, outcome);
  }

  /** A truthy non-string `smell` or `location` makes sanitising throw: 500,
      and no query. */
  lemma NonStringFieldFails(cfg: Config, req: Request, outcome: QueryOutcome)
    requires IsValidOrigin(cfg, req.origin) && req.httpMethod == "POST"
    requires req.requestType == Text("getResults")
    requires Truthy(req.smell) && Truthy(req.location)
    requires req.smell.NonText? || req.location.NonText?
    ensures Handle(cfg, req, outcome) == Handled(None, InternalError)
  {
  }

  /** An accepted `getLocations` request is decided by its `getLocations`
      case. */
  lemma AcceptedLocationsRequest(cfg: Config, req: Request, outcome: QueryOutcome)
    requires IsValidOrigin(cfg, req.origin) && req.httpMethod == "POST"
    requires req.requestType == Text("getLocations")
    ensures Handle(cfg, req, outcome) == GetLocations(outcome)
  {
    assert Handle(cfg, req, outcome) == Dispatch("getLocations", req, outcome);
  }

  /** An accepted `getSmells` request is decided by its `getSmells` case. */
  lemma AcceptedSmellsRequest(cfg: Config, req: Request, outcome: QueryOutcome)
    requires IsValidOrigin(cfg, req.origin) && req.httpMethod == "POST"
    requires req.requestType == Text("getSmells")
    ensures Handle(cfg, req, outcome) == GetSmells(outcome)
  {
    assert Handle(cfg, req, outcome) == Dispatch("getSmells", req, outcome);
  }

  /** Rows from the store are answered with their deduplicated location
      column. */
  lemma LocationsAnswer(rows: seq<SmellRecord>)
    ensures GetLocations(Rows(Some(rows)))
            == Handled(Some(LocationsQuery), Response(200, LocationList(Dedup(LocationColumn(rows)))))
  {
  }

  /** The deduplicated location column: each location of the rows once and
      nothing else, in order of first occurrence, and sorted when the column is. */
  lemma LocationColumnDeduplicated(rows: seq<SmellRecord>, le: (string, string) -> bool)
    ensures var col := LocationColumn(rows);
            var ls := Dedup(col);
            && NoDup(ls)
            && (forall i :: 0 <= i < |ls| ==> ls[i] in col)
            && (forall k :: 0 <= k < |rows| ==> rows[k].location in ls)
            && (forall i, j :: 0 <= i < j < |ls| ==> FirstIndex(col, ls[i]) < FirstIndex(col, ls[j]))
            && (Sorted(col, le) ==> Sorted(ls, le))
  {
    var col := LocationColumn(rows);
    var ls := Dedup(col);
    if Sorted(col, le) {
      DedupKeepsSorted(col, le);
    }
    forall k | 0 <= k < |rows| ensures rows[k].location in ls {
      assert col[k] == rows[k].location;
    }
  }

  /** `getLocations` answers with the queried locations without repetition,
      each at its first occurrence, and a list the store sorted stays
      sorted. */
  lemma LocationsDeduplicated(cfg: Config, req: Request, rows: seq<SmellRecord>, le: (string, string) -> bool)
    requires IsValidOrigin(cfg, req.origin) && req.httpMethod == "POST"
    requires req.requestType == Text("getLocations")
    ensures var h := Handle(cfg, req, Rows(Some(rows)));
            && h.query == Some(LocationsQuery)
            && h.response.status == 200
            && h.response.body.LocationList?
            && var ls := h.response.body.locations;
            && NoDup(ls)
            && (forall i :: 0 <= i < |ls| ==> ls[i] in LocationColumn(rows))
            && (forall k :: 0 <= k < |rows| ==> rows[k].location in ls)
            && (forall i, j :: 0 <= i < j < |ls| ==>
                  FirstIndex(LocationColumn(rows), ls[i]) < FirstIndex(LocationColumn(rows), ls[j]))
            && (Sorted(LocationColumn(rows), le) ==> Sorted(ls, le))
  {
    AcceptedLocationsRequest(cfg, req, Rows(Some(rows)));
    LocationsAnswer(rows);
    LocationColumnDeduplicated(rows, le);
  }

  /** A store error on any query is answered with 500 "Internal server
      error". */
  lemma QueryFailureIs500(cfg: Config, req: Request)
    ensures var h := Handle(cfg, req, QueryFailed);
            h.query.Some? ==> h.response == InternalError
  {
  }
}

=== FILE: decimal.dfy ===
/** Decimal text of the 1-based numbers in the result labels
    (`{index + 1}` in JSX). */
module Decimal {

  predicate IsDigit(c: char) {
    '0' <= c <= '9'
  }

  function DigitChar(d: nat): (c: char)
    requires d < 10
    ensures IsDigit(c) && DigitValue(c) == d
  {
    ('0' as int + d) as char
  }

  function DigitValue(c: char): (d: nat)
    requires IsDigit(c)
    ensures d < 10
  {
    c as int - '0' as int
  }

  /** Shortest decimal spelling of `n`. */
  function NatToString(n: nat): (s: string)
    ensures |s| >= 1
    ensures forall i :: 0 <= i < |s| ==> IsDigit(s[i])
    ensures s[0] == '0' ==> n == 0
    decreases n
  {
    if n < 10 then [DigitChar(n)] else NatToString(n / 10) + [DigitChar(n % 10)]
  }

  /** The value a string of decimal digits denotes. */
  function ParseDigits(s: string): nat
    requires forall i :: 0 <= i < |s| ==> IsDigit(s[i])
    decreases |s|
  {
    if |s| == 0 then 0
    else 10 * ParseDigits(s[..|s| - 1]) + DigitValue(s[|s| - 1])
  }

  /** Reading the label back gives the number. */
  lemma {:induction false} NatToStringRoundTrip(n: nat)
    ensures ParseDigits(NatToString(n)) == n
    decreases n
  {
    if n >= 10 {
      var s := NatToString(n);
      NatToStringRoundTrip(n / 10);
      assert s[..|s| - 1] == NatToString(n / 10);
    }
  }
}

=== FILE: home.dfy ===
/** The page of `pages/index.tsx`: the result panel's state machine
    (`handleSelectionChange`, `clearResults`), its rendering, and the wiring
    of the selector's callbacks to it. A request is split into its start,
    which runs synchronously, and its completion, whose `fetch` outcome is a
    parameter. */
module Home {
  import opened Wrappers
  import opened Records
  import opened Decimal
  import opened Seqs
  import Selector
  import Api

  datatype Panel = Panel(results: seq<SmellRecord>, loading: bool, error: Option<string>)

  const InitialPanel := Panel([], false, None)

  /** The `getResults` request the page posts. */
  datatype ResultsRequest = ResultsRequest(smell: string, location: string)

  datatype Started = Started(panel: Panel, request: Option<ResultsRequest>)

  /** The synchronous part of `handleSelectionChange`: the empty-value guard,
      then `setLoading(true)`, `setError(null)` and the request. */
  function BeginSelection(p: Panel, smell: string, location: string): (r: Started)
    ensures r.request.None? <==> smell == "" || location == ""
    ensures r.request.None? ==> r.panel == p
    ensures r.request.Some? ==>
              && r.request.value == ResultsRequest(smell, location)
              && r.panel.loading && r.panel.error.None? && r.panel.results == p.results
  {
    if smell == "" || location == "" then Started(p, None)
    else Started(p.(loading := true, error := None), Some(ResultsRequest(smell, location)))
  }

  /** A value caught by the `catch` block. */
  datatype Thrown = ErrorInstance(message: string) | OtherThrown

  /** How the awaited part of a request ends: a non-ok response whose JSON
      body has a string `message` or none; an ok response with its parsed
      body; or an exception from `fetch` or from parsing a body. */
  datatype FetchOutcome =
    | NotOk(message: Option<string>)
    | Ok(body: Payload<SmellRecord>)
    | Threw(thrown: Thrown)

  const FetchFailed := "Failed to fetch results"
  const InvalidFormat := "Invalid response format"
  const GenericError := "An error occurred"

  /** What the `try` block throws, if anything. */
  function Failure(o: FetchOutcome): (t: Option<Thrown>)
    ensures t.None? <==> o.Ok? && o.body.Items?
  {
    match o
    case NotOk(m) => Some(ErrorInstance(if m.Some? && m.value != "" then m.value else FetchFailed))
    case Ok(body) => if body.Items? then None else Some(ErrorInstance(InvalidFormat))
    case Threw(e) => Some(e)
  }

  /** The message `setError` receives for a caught value. */
  function ErrorText(t: Thrown): string {
    match t
    case ErrorInstance(m) => m
    case OtherThrown => GenericError
  }

  /** The awaited part of `handleSelectionChange`, with its `catch` and
      `finally`. */
  function Finish(p: Panel, o: FetchOutcome): (q: Panel)
    ensures !q.loading
    ensures o.Ok? && o.body.Items? ==> q.results == o.body.items && q.error == p.error
    ensures !(o.Ok? && o.body.Items?) ==> q.results == [] && q.error.Some?
    ensures o.NotOk? ==>
              q.error == Some(if o.message.Some? && o.message.value != "" then o.message.value else FetchFailed)
    ensures o.Ok? && !o.body.Items? ==> q.error == Some(InvalidFormat)
    ensures o.Threw? && o.thrown.ErrorInstance? ==> q.error == Some(o.thrown.message)
    ensures o.Threw? && o.thrown.OtherThrown? ==> q.error == Some(GenericError)
  {
    match Failure(o)
    case None => p.(results := o.body.items, loading := false)
    case Some(e) => p.(results := [], error := Some(ErrorText(e)), loading := false)
  }

  /** A whole request from its start: success shows the rows and no error,
      failure shows an error and no rows, and either way loading is over. */
  lemma RequestRoundTrip(p: Panel, smell: string, location: string, o: FetchOutcome)
    requires smell != "" && location != ""
    ensures var q := Finish(BeginSelection(p, smell, location).panel, o);
            && !q.loading
            && (o.Ok? && o.body.Items? ==> q.results == o.body.items && q.error.None?)
            && (!(o.Ok? && o.body.Items?) ==> q.results == [] && q.error.Some?)
  {
  }

  /** `clearResults`. */
  function ClearResults(p: Panel): (q: Panel)
    ensures q.results == []
    ensures q.error == p.error && q.loading == p.loading
  {
    p.(results := [])
  }

  /** One line of a result card. */
  datatype Line = CauseLine(number: nat, text: string) | SolutionLine(number: nat, text: string)

  function NumberCauses(xs: seq<string>, first: nat): (ls: seq<Line>)
    ensures |ls| == |xs|
    ensures forall i :: 0 <= i < |xs| ==> ls[i] == CauseLine(first + i, xs[i])
    decreases |xs|
  {
    if |xs| == 0 then [] else [CauseLine(first, xs[0])] + NumberCauses(xs[1..], first + 1)
  }

  function NumberSolutions(xs: seq<string>, first: nat): (ls: seq<Line>)
    ensures |ls| == |xs|
    ensures forall i :: 0 <= i < |xs| ==> ls[i] == SolutionLine(first + i, xs[i])
    decreases |xs|
  {
    if |xs| == 0 then [] else [SolutionLine(first, xs[0])] + NumberSolutions(xs[1..], first + 1)
  }

  /** One result card: the causes numbered from 1, then the solutions
      numbered from 1, each in stored order. */
  function RenderRecord(r: SmellRecord): (ls: seq<Line>)
    ensures |ls| == |r.causes| + |r.solutions|
    ensures forall i :: 0 <= i < |r.causes| ==> ls[i] == CauseLine(i + 1, r.causes[i])
    ensures forall j :: 0 <= j < |r.solutions| ==> ls[|r.causes| + j] == SolutionLine(j + 1, r.solutions[j])
  {
    NumberCauses(r.causes, 1) + NumberSolutions(r.solutions, 1)
  }

  function RenderAll(rs: seq<SmellRecord>): (cards: seq<seq<Line>>)
    ensures |cards| == |rs|
    ensures forall i :: 0 <= i < |rs| ==> cards[i] == RenderRecord(rs[i])
    decreases |rs|
  {
    if |rs| == 0 then [] else [RenderRecord(rs[0])] + RenderAll(rs[1..])
  }

  /** The result area: a spinner (no cards) while loading, otherwise one card
      per result, and nothing when there are none. */
  function Render(p: Panel): (cards: seq<seq<Line>>)
    ensures p.loading || |p.results| == 0 ==> cards == []
    ensures !p.loading ==> |cards| == |p.results|
    ensures !p.loading ==> forall i :: 0 <= i < |cards| ==> cards[i] == RenderRecord(p.results[i])
  {
    if p.loading then [] else RenderAll(p.results)
  }

  /** The error banner, shown for a truthy `error`. */
  function Banner(p: Panel): (b: Option<string>)
    ensures b.Some? <==> p.error.Some? && p.error.value != ""
    ensures b.Some? ==> b == p.error
  {
    if p.error.Some? && p.error.value != "" then p.error else None
  }

  function Label(l: Line): string {
    if l.CauseLine? then "Possible Cause " else "Solution "
  }

  /** The text of a line: its label, then its number in decimal, then a
      colon and a space, then the entry. */
  function LineText(l: Line): (s: string)
    ensures |s| > |Label(l)| + |l.text| + 2
    ensures s[..|Label(l)|] == Label(l)
    ensures s[|s| - |l.text|..] == l.text
    ensures s[|s| - |l.text| - 2..|s| - |l.text|] == ": "
    ensures var digits := s[|Label(l)|..|s| - |l.text| - 2];
            && (forall i :: 0 <= i < |digits| ==> IsDigit(digits[i]))
            && ParseDigits(digits) == l.number
  {
    var digits := NatToString(l.number);
    ConcatSlices(Label(l), digits, ": ", l.text);
    NatToStringRoundTrip(l.number);
    Label(l) + digits + ": " + l.text
  }

  /** The selector and the panel together. */
  datatype Page = Page(selector: Selector.State, panel: Panel)

  const InitialPage := Page(Selector.Initial, InitialPanel)

  /** At mount the selector shows the list belonging to its state, and the
      panel shows no cards, no spinner and no banner. */
  lemma InitialPageIsBlank()
    ensures Selector.Consistent(InitialPage.selector)
    ensures Render(InitialPage.panel) == [] && !InitialPage.panel.loading
    ensures Banner(InitialPage.panel).None?
  {
  }

  datatype PageStep = PageStep(page: Page, requests: seq<ResultsRequest>)

  /** The panel after running callbacks, and the requests they posted. */
  datatype Delivered = Delivered(panel: Panel, requests: seq<ResultsRequest>)

  /** One callback run: `onSelectionChange` is `handleSelectionChange`,
      `onLocationChange` is `clearResults`. */
  function Notify(p: Panel, n: Selector.Notification): (r: Delivered)
    ensures n.LocationChanged? ==> r == Delivered(ClearResults(p), [])
    ensures n.SelectionChanged? && (n.smell == "" || n.location == "") ==> r == Delivered(p, [])
  {
    match n
    case SelectionChanged(smell, location) =>
      var b := BeginSelection(p, smell, location);
      Delivered(b.panel, if b.request.Some? then [b.request.value] else [])
    case LocationChanged => Delivered(ClearResults(p), [])
  }

  /** Run the callbacks for the selector's notifications, in order,
      collecting the requests they post. */
  function Deliver(p: Panel, notes: seq<Selector.Notification>): Delivered
    decreases |notes|
  {
    if |notes| == 0 then Delivered(p, [])
    else
      var first := Notify(p, notes[0]);
      var rest := Deliver(first.panel, notes[1..]);
      Delivered(rest.panel, first.requests + rest.requests)
  }

  lemma DeliverOne(p: Panel, n: Selector.Notification)
    ensures Deliver(p, [n]) == Notify(p, n)
  {
  }

  /** Choosing a location issues no request (the selector reports an empty
      smell) and clears the results, leaving loading and error alone. */
  function PickLocation(pg: Page, loc: string): (r: PageStep)
    ensures r.requests == []
    ensures r.page.panel == pg.panel.(results := [])
    ensures r.page.selector.selectedLocation == loc && r.page.selector.selectedSmell == ""
    ensures r.page.selector.allSmells == pg.selector.allSmells
    ensures r.page.selector.locations == pg.selector.locations
    ensures Selector.Consistent(pg.selector) || loc != pg.selector.selectedLocation ==>
              Selector.Consistent(r.page.selector)
  {
    var step := Selector.ChangeLocation(pg.selector, loc, true);
    var emitted := step.emitted;
    assert emitted == [Selector.SelectionChanged("", loc), Selector.LocationChanged];
    assert emitted[1..] == [Selector.LocationChanged];
    DeliverOne(pg.panel, Selector.LocationChanged);
    var delivered := Deliver(pg.panel, emitted);
    PageStep(Page(step.state, delivered.panel), delivered.requests)
  }

  /** Choosing a smell under a chosen location posts that pair and starts
      loading; with either value empty nothing happens on the panel. */
  function PickSmell(pg: Page, smell: string): (r: PageStep)
    ensures smell != "" && pg.selector.selectedLocation != "" ==>
              && r.requests == [ResultsRequest(smell, pg.selector.selectedLocation)]
              && r.page.panel.loading && r.page.panel.error.None?
    ensures smell == "" || pg.selector.selectedLocation == "" ==>
              r.requests == [] && r.page.panel == pg.panel
    ensures r.page.selector.selectedSmell == smell
  {
    var step := Selector.ChangeSmell(pg.selector, smell);
    DeliverOne(pg.panel, step.emitted[0]);
    var delivered := Deliver(pg.panel, step.emitted);
    PageStep(Page(step.state, delivered.panel), delivered.requests)
  }

  /** A request completing. */
  function Respond(pg: Page, o: FetchOutcome): (q: Page)
    ensures q.selector == pg.selector && !q.panel.loading
    ensures o.Ok? && o.body.Items? ==> q.panel.results == o.body.items && q.panel.error == pg.panel.error
    ensures !(o.Ok? && o.body.Items?) ==> q.panel.results == [] && q.panel.error.Some?
  {
    pg.(panel := Finish(pg.panel, o))
  }

  /** The API request the page posts for a pair. */
  function ApiRequest(origin: Option<string>, r: ResultsRequest): Api.Request {
    Api.Request(origin, "POST", Api.Text("getResults"), Api.Text(r.smell), Api.Text(r.location))
  }

  /** How the page sees an API response to `getResults`: error bodies are
      `{ error }` objects with no `message`; success bodies are the rows or
      `null`. */
  function FromApi(resp: Api.Response): FetchOutcome {
    match resp.body
    case RecordList(rs) => Ok(Items(rs))
    case NullBody => Ok(Falsy)
    case ErrorBody(_) => NotOk(None)
    case LocationList(_) => Ok(NonArray)
    case PairList(_) => Ok(NonArray)
  }

  /** For a pair the page actually posts, the API never answers "Missing
      required fields" or with another list; whenever it fails, the panel
      shows the generic "Failed to fetch results", because the API's error
      bodies carry `error` rather than `message`. */
  lemma ApiErrorsShowFallback(cfg: Api.Config, origin: Option<string>, r: ResultsRequest,
                              outcome: Api.QueryOutcome, p: Panel)
    requires r.smell != "" && r.location != ""
    ensures var h := Api.Handle(cfg, ApiRequest(origin, r), outcome);
            && h.response != Api.MissingFields
            && (h.response.body.RecordList? || h.response.body.NullBody? || h.response.body.ErrorBody?)
            && (h.response.status != 200 ==> Finish(p, FromApi(h.response)).error == Some(FetchFailed))
  {
    Api.PostedPairAnswers(cfg, origin, r.smell, r.location, outcome);
  }

  /** When the origin passes and the store answers with rows, the panel ends
      up showing exactly those rows. */
  lemma ApiRowsAreShown(cfg: Api.Config, origin: Option<string>, r: ResultsRequest,
                        rows: seq<SmellRecord>, p: Panel)
    requires r.smell != "" && r.location != ""
    requires Api.IsValidOrigin(cfg, origin)
    ensures var h := Api.Handle(cfg, ApiRequest(origin, r), Api.Rows(Some(rows)));
            Finish(p, FromApi(h.response)).results == rows
  {
    Api.PostedPair(cfg, origin, r.smell, r.location, Api.Rows(Some(rows)));
  }
}

=== FILE: records.dfy ===
/** The data that crosses the boundary between the store, the API route and
    the two client components. */
module Records {

  /** One row of the `smells` table: a smell at a location with its ordered
      causes and solutions. */
  datatype SmellRecord = SmellRecord(
    id: int,
    name: string,
    location: string,
    causes: seq<string>,
    solutions: seq<string>)

  /** The `name, location` projection the selector downloads. */
  datatype SmellPair = SmellPair(name: string, location: string)

  /** A parsed JSON response body, as far as the client code inspects it:
      a falsy value (`null`), an array, or any other truthy value (an object
      such as `{ error: "…" }`). */
  datatype Payload<T> = Falsy | Items(items: seq<T>) | NonArray
}

=== FILE: sanitize.dfy ===
/** `sanitizeString` of the API route: delete every character outside ASCII
    letters, ASCII digits, whitespace and `-`, then trim whitespace at both
    ends. */
module Sanitize {
  import opened Seqs

  /** The characters JavaScript's `\s` matches, which are also the characters
      `String.prototype.trim` removes: ECMAScript WhiteSpace (tab, vertical tab,
      form feed, space, no-break space, byte order mark and the Unicode space
      separators) together with LineTerminator (line feed, carriage return,
      line and paragraph separators). */
  predicate IsWS(c: char) {
    var n := c as int;
    || n == 0x09 || n == 0x0A || n == 0x0B || n == 0x0C || n == 0x0D
    || n == 0x20 || n == 0xA0 || n == 0x1680
    || (0x2000 <= n <= 0x200A)
    || n == 0x2028 || n == 0x2029 || n == 0x202F || n == 0x205F
    || n == 0x3000 || n == 0xFEFF
  }

  /** The class `[a-zA-Z0-9\s-]` that survives sanitising. */
  predicate IsAllowed(c: char) {
    || ('a' <= c <= 'z')
    || ('A' <= c <= 'Z')
    || ('0' <= c <= '9')
    || IsWS(c)
    || c == '-'
  }

  predicate AllAllowed(s: string) {
    forall i :: 0 <= i < |s| ==> IsAllowed(s[i])
  }

  predicate AllWS(s: string) {
    forall i :: 0 <= i < |s| ==> IsWS(s[i])
  }

  /** No whitespace at either end. */
  predicate IsTrimmed(s: string) {
    |s| == 0 || (!IsWS(s[0]) && !IsWS(s[|s| - 1]))
  }

  /** `replace(/[^a-zA-Z0-9\s-]/g, "")`: keeps only allowed characters, in
      their original order (see `StripCounts` for which ones). */
  function Strip(s: string): (r: string)
    ensures AllAllowed(r)
    ensures IsSubsequence(r, s)
    decreases |s|
  {
    if |s| == 0 then []
    else
      var rest := Strip(s[1..]);
      if IsAllowed(s[0]) then [s[0]] + rest else rest
  }

  /** `Strip` keeps every allowed character as often as it occurs and no
      other character. */
  lemma {:induction false} StripCounts(s: string)
    ensures forall c :: multiset(Strip(s))[c] == (if IsAllowed(c) then multiset(s)[c] else 0)
    decreases |s|
  {
    if |s| != 0 {
      StripCounts(s[1..]);
      assert s == [s[0]] + s[1..];
    }
  }

  /** Drops the leading whitespace: what remains is a suffix that does not
      start with whitespace. */
  function TrimStart(s: string): (r: string)
    ensures |r| <= |s| && r == s[|s| - |r|..]
    ensures AllWS(s[..|s| - |r|])
    ensures |r| == 0 || !IsWS(r[0])
    decreases |s|
  {
    if |s| != 0 && IsWS(s[0]) then
      var r := TrimStart(s[1..]);
      assert s[..|s| - |r|] == [s[0]] + s[1..][..|s| - 1 - |r|];
      r
    else s
  }

  /** Drops the trailing whitespace: what remains is a prefix that does not
      end with whitespace. */
  function TrimEnd(s: string): (r: string)
    ensures |r| <= |s| && r == s[..|r|]
    ensures AllWS(s[|r|..])
    ensures |r| == 0 || !IsWS(r[|r| - 1])
    decreases |s|
  {
    if |s| != 0 && IsWS(s[|s| - 1]) then
      var r := TrimEnd(s[..|s| - 1]);
      assert s[|r|..] == s[..|s| - 1][|r|..] + [s[|s| - 1]];
      r
    else s
  }

  /** `s` is whitespace, then `r` starting at position `i`, then
      whitespace. */
  predicate SurroundedByWS(s: string, i: int, r: string) {
    && 0 <= i <= |s| - |r|
    && s[i..i + |r|] == r
    && AllWS(s[..i])
    && AllWS(s[i + |r|..])
  }

  /** `trim()`: the input is whitespace, then the result, then whitespace,
      and the result neither starts nor ends with whitespace. */
  function Trim(s: string): (r: string)
    ensures IsTrimmed(r)
    ensures exists i :: SurroundedByWS(s, i, r)
  {
    var t := TrimStart(s);
    var r := TrimEnd(t);
    var i := |s| - |t|;
    assert s[i + |r|..] == t[|r|..];
    assert SurroundedByWS(s, i, r);
    r
  }

  /** Trimming only removes characters from the ends. */
  lemma TrimDeletesOnly(t: string)
    ensures IsSubsequence(Trim(t), t)
    ensures AllAllowed(t) ==> AllAllowed(Trim(t))
  {
    var u := TrimStart(t);
    var r := TrimEnd(u);
    assert Trim(t) == r;
    TakeIsSubsequence(u, |r|);
    DropIsSubsequence(t, |t| - |u|);
    SubsequenceTransitive(r, u, t);
    if AllAllowed(t) {
      forall k | 0 <= k < |r| ensures IsAllowed(r[k]) {
        assert r[k] == u[k] == t[|t| - |u| + k];
      }
    }
  }

  /** `sanitizeString`. */
  function SanitizeString(s: string): (r: string)
    ensures AllAllowed(r)
    ensures IsTrimmed(r)
    ensures IsSubsequence(r, s) && |r| <= |s|
    ensures exists i :: SurroundedByWS(Strip(s), i, r)
  {
    var t := Strip(s);
    TrimDeletesOnly(t);
    SubsequenceTransitive(Trim(t), t, s);
    SubsequenceLength(Trim(t), s);
    Trim(t)
  }

  /** A string is its own sanitised form exactly when it holds only allowed
      characters and has no whitespace at either end. */
  lemma SanitizeFixedPoint(s: string)
    ensures SanitizeString(s) == s <==> AllAllowed(s) && IsTrimmed(s)
  {
    if AllAllowed(s) && IsTrimmed(s) {
      StripKeepsAllowed(s);
      assert TrimStart(s) == s;
      assert TrimEnd(s) == s;
    }
  }

  lemma {:induction false} StripKeepsAllowed(s: string)
    requires AllAllowed(s)
    ensures Strip(s) == s
    decreases |s|
  {
    if |s| != 0 {
      assert AllAllowed(s[1..]) by {
        forall i | 0 <= i < |s[1..]| ensures IsAllowed(s[1..][i]) {
          assert s[1..][i] == s[i + 1];
        }
      }
      StripKeepsAllowed(s[1..]);
      assert s == [s[0]] + s[1..];
    }
  }

  /** Sanitising twice is the same as sanitising once. */
  lemma SanitizeIdempotent(s: string)
    ensures SanitizeString(SanitizeString(s)) == SanitizeString(s)
  {
    SanitizeFixedPoint(SanitizeString(s));
  }
}

=== FILE: selector.dfy ===
/** The two dependent dropdowns of `components/SmellSelector.tsx`, as a state
    machine. A handler's `setState` calls and the effect that React runs when
    `selectedLocation` or `allSmells` changes are folded into one transition
    function per event; callback invocations are returned as notifications. */
module Selector {
  import opened Wrappers
  import opened Records
  import opened Seqs

  datatype State = State(
    allSmells: seq<SmellPair>,
    locations: seq<string>,
    selectedLocation: string,
    selectedSmell: string,
    filteredSmells: seq<string>)

  /** All hooks at their initial values (the mount-time run of the filtering
      effect changes nothing). */
  const Initial := State([], [], "", "", [])

  /** A call of one of the component's two callback props. */
  datatype Notification =
    | SelectionChanged(smell: string, location: string) // onSelectionChange
    | LocationChanged                                   // onLocationChange

  datatype Step = Step(state: State, emitted: seq<Notification>)

  /** `allSmells.filter(location === loc).map(name)`. */
  function NamesAt(all: seq<SmellPair>, loc: string): (names: seq<string>)
    ensures forall i :: 0 <= i < |names| ==> SmellPair(names[i], loc) in all
    ensures forall k :: 0 <= k < |all| && all[k].location == loc ==> all[k].name in names
    decreases |all|
  {
    if |all| == 0 then []
    else
      var rest := NamesAt(all[1..], loc);
      assert all == [all[0]] + all[1..];
      if all[0].location == loc then [all[0].name] + rest else rest
  }

  /** Names keep the relative order of their first matching pairs. */
  lemma {:induction false} NamesAtOrder(all: seq<SmellPair>, loc: string, m: string, n: string)
    requires m in NamesAt(all, loc) && n in NamesAt(all, loc)
    ensures SmellPair(m, loc) in all && SmellPair(n, loc) in all
    ensures FirstIndex(NamesAt(all, loc), m) < FirstIndex(NamesAt(all, loc), n)
            <==> FirstIndex(all, SmellPair(m, loc)) < FirstIndex(all, SmellPair(n, loc))
    decreases |all|
  {
    var names := NamesAt(all, loc);
    var rest := NamesAt(all[1..], loc);
    assert FirstIndex(names, m) < |names| && names[FirstIndex(names, m)] == m;
    assert FirstIndex(names, n) < |names| && names[FirstIndex(names, n)] == n;
    if all[0].location == loc {
      var h := all[0].name;
      assert names == [h] + rest;
      if m != h && n != h {
        NamesAtOrder(all[1..], loc, m, n);
      }
    } else {
      assert names == rest;
      NamesAtOrder(all[1..], loc, m, n);
    }
  }

  /** The smell names offered for `loc`: none while no location is chosen;
      otherwise exactly the names paired with `loc` (exact, case-sensitive
      match), each once, in the order of their first pair in `all`. */
  function FilteredSmells(all: seq<SmellPair>, loc: string): (r: seq<string>)
    ensures loc == "" ==> r == []
    ensures NoDup(r)
    ensures loc != "" ==> forall i :: 0 <= i < |r| ==> SmellPair(r[i], loc) in all
    ensures loc != "" ==> forall k :: 0 <= k < |all| && all[k].location == loc ==> all[k].name in r
    ensures loc != "" ==> forall i, j :: 0 <= i < j < |r| ==>
              FirstIndex(all, SmellPair(r[i], loc)) < FirstIndex(all, SmellPair(r[j], loc))
  {
    if loc == "" then []
    else
      var names := NamesAt(all, loc);
      var r := Dedup(names);
      assert forall i, j :: 0 <= i < j < |r| ==>
               FirstIndex(all, SmellPair(r[i], loc)) < FirstIndex(all, SmellPair(r[j], loc)) by {
        forall i, j | 0 <= i < j < |r|
          ensures FirstIndex(all, SmellPair(r[i], loc)) < FirstIndex(all, SmellPair(r[j], loc))
        {
          NamesAtOrder(all, loc, r[i], r[j]);
        }
      }
      r
  }

  /** The list on screen is the one computed from the current location and
      smells. */
  predicate Consistent(s: State) {
    s.filteredSmells == FilteredSmells(s.allSmells, s.selectedLocation)
  }

  lemma InitialConsistent()
    ensures Consistent(Initial)
  {
  }

  /** The effect on `[selectedLocation, allSmells]`. */
  function Refresh(s: State): (t: State)
    ensures Consistent(t) && t.selectedSmell == ""
    ensures t.allSmells == s.allSmells && t.locations == s.locations
    ensures t.selectedLocation == s.selectedLocation
  {
    s.(filteredSmells := FilteredSmells(s.allSmells, s.selectedLocation), selectedSmell := "")
  }

  /** `handleLocationChange`: select the location, clear the smell, tell the
      parent `("", location)`, then call `onLocationChange` if given. React
      reruns the effect only when the location actually changed; when it did
      not, the list on screen already belongs to it. */
  function ChangeLocation(s: State, loc: string, hasLocationCallback: bool): (t: Step)
    ensures t.state.selectedLocation == loc && t.state.selectedSmell == ""
    ensures t.state.allSmells == s.allSmells && t.state.locations == s.locations
    ensures Consistent(s) || loc != s.selectedLocation ==> Consistent(t.state)
    ensures |t.emitted| >= 1 && t.emitted[0] == SelectionChanged("", loc)
    ensures t.emitted[1..] == (if hasLocationCallback then [LocationChanged] else [])
  {
    var chosen := s.(selectedLocation := loc, selectedSmell := "");
    var next := if loc != s.selectedLocation then Refresh(chosen) else chosen;
    Step(next, [SelectionChanged("", loc)] + (if hasLocationCallback then [LocationChanged] else []))
  }

  /** `handleSmellChange`: select the smell and tell the parent the pair with
      the current location; the effect does not rerun. */
  function ChangeSmell(s: State, smell: string): (t: Step)
    ensures t.state.selectedSmell == smell
    ensures t.state.selectedLocation == s.selectedLocation
    ensures t.state.filteredSmells == s.filteredSmells
    ensures t.state.allSmells == s.allSmells && t.state.locations == s.locations
    ensures Consistent(s) ==> Consistent(t.state)
    ensures t.emitted == [SelectionChanged(smell, s.selectedLocation)]
  {
    Step(s.(selectedSmell := smell), [SelectionChanged(smell, s.selectedLocation)])
  }

  /** What `allSmells` can hold at run time: an array, or (see
      `StoreSmellsAsWritten`) a non-array object. */
  datatype SmellSlot = ArraySlot(pairs: seq<SmellPair>) | ObjectSlot

  /** `if (smellData) setAllSmells(smellData)` as written: any truthy
      payload is stored, including a non-array error object. */
  function StoreSmellsAsWritten(slot: SmellSlot, p: Payload<SmellPair>): (r: SmellSlot)
    ensures p.Falsy? ==> r == slot
    ensures p.Items? ==> r == ArraySlot(p.items)
    ensures p.NonArray? ==> r.ObjectSlot?
  {
    match p
    case Falsy => slot
    case Items(xs) => ArraySlot(xs)
    case NonArray => ObjectSlot
  }

  /** The smells guard with the `Array.isArray` test the locations guard
      already has: only an array replaces the stored smells. */
  function StoreSmells(slot: SmellSlot, p: Payload<SmellPair>): (r: SmellSlot)
    ensures slot.ArraySlot? ==> r.ArraySlot?
    ensures p.Items? ==> r == ArraySlot(p.items)
    ensures !p.Items? ==> r == slot
  {
    if p.Items? then ArraySlot(p.items) else slot
  }

  /** The filtering effect run over a slot: `None` when `.filter` would be
      called on a non-array, which throws. */
  function FilterSlot(slot: SmellSlot, loc: string): (r: Option<seq<string>>)
    ensures r.None? <==> loc != "" && slot.ObjectSlot?
    ensures slot.ArraySlot? ==> r == Some(FilteredSmells(slot.pairs, loc))
  {
    if loc == "" then Some([])
    else match slot
      case ArraySlot(ps) => Some(FilteredSmells(ps, loc))
      case ObjectSlot => None
  }

  /** Result of the mount-time fetch of both lists: two parsed payloads, or
      an exception from either request or its JSON parsing (after which
      neither list is set). */
  datatype OptionsFetch = Fetched(smellData: Payload<SmellPair>, locationData: Payload<string>) | FetchThrew

  /** The selector's state when `allSmells` may hold a non-array (see
      `StoreSmellsAsWritten`). */
  datatype SlotState = SlotState(
    allSmells: SmellSlot,
    locations: seq<string>,
    selectedLocation: string,
    selectedSmell: string,
    filteredSmells: seq<string>)

  function AsSlotState(s: State): SlotState {
    SlotState(ArraySlot(s.allSmells), s.locations, s.selectedLocation, s.selectedSmell, s.filteredSmells)
  }

  /** `fetchOptions` completing, as written: any truthy smells payload is
      stored, and being a new value it reruns the filtering effect, which
      throws (`None`) when a location is chosen and the payload is not an
      array. Locations are replaced only by an array. */
  function LoadOptionsAsWritten(s: State, f: OptionsFetch): (r: Option<SlotState>)
    ensures r.None? <==> f.Fetched? && f.smellData.NonArray? && s.selectedLocation != ""
    ensures !(f.Fetched? && f.smellData.NonArray?) ==> r == Some(AsSlotState(LoadOptions(s, f)))
    ensures f.Fetched? && f.smellData.NonArray? && r.Some? ==>
              && r.value.allSmells.ObjectSlot?
              && r.value.filteredSmells == [] && r.value.selectedSmell == ""
              && r.value.selectedLocation == s.selectedLocation
              && r.value.locations == (if f.locationData.Items? then f.locationData.items else s.locations)
  {
    match f
    case FetchThrew => Some(AsSlotState(s))
    case Fetched(smellData, locationData) =>
      var locations := if locationData.Items? then locationData.items else s.locations;
      var slot := StoreSmellsAsWritten(ArraySlot(s.allSmells), smellData);
      if smellData.Falsy? then
        Some(SlotState(slot, locations, s.selectedLocation, s.selectedSmell, s.filteredSmells))
      else
        match FilterSlot(slot, s.selectedLocation)
        case None => None
        case Some(shown) => Some(SlotState(slot, locations, s.selectedLocation, "", shown))
  }

  /** As written: when the smells request fails at mount and the API answers
      with its `{ error }` object, the object is stored, the locations still
      arrive, and choosing any location afterwards makes the filtering effect
      throw. */
  lemma ErrorBodyBreaksFiltering(locs: seq<string>, loc: string)
    requires loc != ""
    ensures var r := LoadOptionsAsWritten(Initial, Fetched(NonArray, Items(locs)));
            && r.Some? && r.value.locations == locs && r.value.allSmells.ObjectSlot?
            && FilterSlot(r.value.allSmells, loc).None?
  {
  }

  /** Corrected: whatever payloads arrive, the stored smells stay an array
      and filtering is always defined. */
  lemma StoreSmellsKeepsFilteringDefined(slot: SmellSlot, p: Payload<SmellPair>, loc: string)
    requires slot.ArraySlot?
    ensures FilterSlot(StoreSmells(slot, p), loc).Some?
  {
  }

  /** `fetchOptions` completing, with the corrected smells guard. Locations
      are replaced only by an array; smells likewise, and then the effect
      reruns because `allSmells` is a new array. */
  function LoadOptions(s: State, f: OptionsFetch): (t: State)
    ensures f.FetchThrew? ==> t == s
    ensures f.Fetched? && f.locationData.Items? ==> t.locations == f.locationData.items
    ensures !(f.Fetched? && f.locationData.Items?) ==> t.locations == s.locations
    ensures f.Fetched? && f.smellData.Items? ==> t.allSmells == f.smellData.items && t.selectedSmell == ""
    ensures !(f.Fetched? && f.smellData.Items?) ==> t.allSmells == s.allSmells
    ensures !(f.Fetched? && f.smellData.Items?) ==>
              t.selectedSmell == s.selectedSmell && t.filteredSmells == s.filteredSmells
    ensures t.selectedLocation == s.selectedLocation
    ensures Consistent(s) ==> Consistent(t)
  {
    match f
    case FetchThrew => s
    case Fetched(smellData, locationData) =>
      var withLocations := if locationData.Items? then s.(locations := locationData.items) else s;
      var slot := StoreSmells(ArraySlot(s.allSmells), smellData);
      if smellData.Items? then Refresh(withLocations.(allSmells := slot.pairs)) else withLocations
  }

  /** The second dropdown as rendered. */
  datatype SmellDropdown = SmellDropdown(disabled: bool, placeholder: string, options: seq<string>)

  function SmellDropdownOf(s: State): (d: SmellDropdown)
    ensures d.disabled <==> s.selectedLocation == ""
    ensures d.placeholder == (if d.disabled then "Select location first" else "Select smell...")
    ensures d.options == s.filteredSmells
  {
    var chosen := s.selectedLocation != "";
    SmellDropdown(!chosen, if chosen then "Select smell..." else "Select location first", s.filteredSmells)
  }

  /** A disabled smell dropdown never offers options. */
  lemma DisabledDropdownIsEmpty(s: State)
    requires Consistent(s)
    ensures SmellDropdownOf(s).disabled ==> SmellDropdownOf(s).options == []
  {
  }

  /** Choosing a location no smell is paired with leaves the smell dropdown
      enabled but empty. */
  lemma LocationWithoutSmells(s: State, loc: string, hasLocationCallback: bool)
    requires Consistent(s)
    requires loc != ""
    requires forall k :: 0 <= k < |s.allSmells| ==> s.allSmells[k].location != loc
    ensures var d := SmellDropdownOf(ChangeLocation(s, loc, hasLocationCallback).state);
            !d.disabled && d.placeholder == "Select smell..." && d.options == []
  {
  }
}

=== FILE: seqs.dfy ===
/** Sequence facts shared by the API route and the selector: duplicate removal
    that keeps first occurrences (JavaScript's `[...new Set(xs)]`) and
    order-preserving subsequences. */
module Seqs {

  /** No value occurs twice in `xs`. */
  predicate NoDup<T(==)>(xs: seq<T>) {
    forall i, j :: 0 <= i < j < |xs| ==> xs[i] != xs[j]
  }

  /** `xs` is ordered pairwise by `le`. */
  predicate Sorted<T>(xs: seq<T>, le: (T, T) -> bool) {
    forall i, j :: 0 <= i < j < |xs| ==> le(xs[i], xs[j])
  }

  /** `a` is what remains of `b` after deleting some of its elements. */
  predicate IsSubsequence<T(==)>(a: seq<T>, b: seq<T>)
    decreases |b|
  {
    if |a| == 0 then true
    else if |b| == 0 then false
    else (a[0] == b[0] && IsSubsequence(a[1..], b[1..])) || IsSubsequence(a, b[1..])
  }

  lemma {:induction false} SubsequenceLength<T>(a: seq<T>, b: seq<T>)
    requires IsSubsequence(a, b)
    ensures |a| <= |b|
    decreases |b|
  {
    if |a| != 0 {
      if a[0] == b[0] && IsSubsequence(a[1..], b[1..]) {
        SubsequenceLength(a[1..], b[1..]);
      } else {
        SubsequenceLength(a, b[1..]);
      }
    }
  }

  lemma {:induction false} SubsequenceReflexive<T>(s: seq<T>)
    ensures IsSubsequence(s, s)
    decreases |s|
  {
    if |s| != 0 {
      SubsequenceReflexive(s[1..]);
    }
  }

  lemma {:induction false} SubsequenceTransitive<T>(a: seq<T>, b: seq<T>, c: seq<T>)
    requires IsSubsequence(a, b) && IsSubsequence(b, c)
    ensures IsSubsequence(a, c)
    decreases |c|
  {
    if |a| != 0 {
      SubsequenceLength(a, b);
      SubsequenceLength(b, c);
      if IsSubsequence(b, c[1..]) {
        SubsequenceTransitive(a, b, c[1..]);
      } else if a[0] == b[0] && IsSubsequence(a[1..], b[1..]) {
        SubsequenceTransitive(a[1..], b[1..], c[1..]);
      } else {
        SubsequenceTransitive(a, b[1..], c[1..]);
      }
    }
  }

  lemma {:induction false} DropIsSubsequence<T>(s: seq<T>, i: nat)
    requires i <= |s|
    ensures IsSubsequence(s[i..], s)
    decreases i
  {
    if i == 0 {
      SubsequenceReflexive(s);
    } else {
      DropIsSubsequence(s[1..], i - 1);
      assert s[1..][i - 1..] == s[i..];
    }
  }

  lemma {:induction false} TakeIsSubsequence<T>(s: seq<T>, j: nat)
    requires j <= |s|
    ensures IsSubsequence(s[..j], s)
    decreases j
  {
    if j != 0 {
      TakeIsSubsequence(s[1..], j - 1);
      assert s[..j][1..] == s[1..][..j - 1];
    }
  }

  /** The four parts of a concatenation can be sliced back out of it. */
  lemma ConcatSlices<T>(a: seq<T>, b: seq<T>, c: seq<T>, d: seq<T>)
    ensures var s := a + b + c + d;
            && |s| == |a| + |b| + |c| + |d|
            && s[..|a|] == a
            && s[|a|..|a| + |b|] == b
            && s[|a| + |b|..|a| + |b| + |c|] == c
            && s[|a| + |b| + |c|..] == d
  {
  }

  /** Position of the first occurrence of `x` in `xs`. */
  function FirstIndex<T(==)>(xs: seq<T>, x: T): (k: nat)
    requires x in xs
    ensures k < |xs| && xs[k] == x
    ensures forall i :: 0 <= i < k ==> xs[i] != x
    decreases |xs|
  {
    if xs[0] == x then 0 else 1 + FirstIndex(xs[1..], x)
  }

  /** Appending an element does not move the first occurrence of anything
      already present, and places a new element last. */
  lemma FirstIndexAppend<T>(init: seq<T>, x: T)
    ensures forall y :: y in init ==> FirstIndex(init + [x], y) == FirstIndex(init, y)
    ensures x !in init ==> FirstIndex(init + [x], x) == |init|
  {
    forall y | y in init
      ensures FirstIndex(init + [x], y) == FirstIndex(init, y)
    {
      var k, k' := FirstIndex(init + [x], y), FirstIndex(init, y);
      assert (init + [x])[k'] == y;
      assert init[k] == y;
    }
  }

  /** `xs` without repetitions, keeping the first occurrence of each value:
      the insertion order of a JavaScript `Set` built from `xs`. */
  function Dedup<T(==)>(xs: seq<T>): (r: seq<T>)
    ensures NoDup(r)
    ensures forall i :: 0 <= i < |r| ==> r[i] in xs
    ensures forall i :: 0 <= i < |xs| ==> xs[i] in r
    ensures forall i, j :: 0 <= i < j < |r| ==> FirstIndex(xs, r[i]) < FirstIndex(xs, r[j])
    decreases |xs|
  {
    if |xs| == 0 then []
    else
      var init, x := xs[..|xs| - 1], xs[|xs| - 1];
      assert xs == init + [x];
      var d := Dedup(init);
      FirstIndexAppend(init, x);
      if x in d then d else d + [x]
  }

  /** A sequence that already has no repetitions is left as it is. */
  lemma {:induction false} DedupKeepsDistinct<T>(xs: seq<T>)
    requires NoDup(xs)
    ensures Dedup(xs) == xs
    decreases |xs|
  {
    if |xs| != 0 {
      var init, x := xs[..|xs| - 1], xs[|xs| - 1];
      assert xs == init + [x];
      assert NoDup(init) by {
        forall i, j | 0 <= i < j < |init| ensures init[i] != init[j] {
          assert init[i] == xs[i] && init[j] == xs[j];
        }
      }
      DedupKeepsDistinct(init);
      assert x !in init by {
        forall i | 0 <= i < |init| ensures init[i] != x {
          assert init[i] == xs[i];
        }
      }
    }
  }

  /** Removing repetitions from a sorted sequence leaves it sorted. */
  lemma DedupKeepsSorted<T>(xs: seq<T>, le: (T, T) -> bool)
    requires Sorted(xs, le)
    ensures Sorted(Dedup(xs), le)
  {
    var r := Dedup(xs);
    forall i, j | 0 <= i < j < |r|
      ensures le(r[i], r[j])
    {
      var a, b := FirstIndex(xs, r[i]), FirstIndex(xs, r[j]);
      assert xs[a] == r[i] && xs[b] == r[j] && a < b;
    }
  }
}

=== FILE: wrappers.dfy ===
/** Optional values: a JavaScript `undefined`/`null` or a present value. */
module Wrappers {

  datatype Option<+T> = None | Some(value: T) {

    /** The value, or `default` when absent. */
    function GetOr(default: T): T {
      match this
      case Some(v) => v
      case None => default
    }
  }
}
